=== FILE: README.md ===
# blogApp-server request handlers, modelled in Dafny

This project models the request handlers of a small blogging backend (Express and
MongoDB). It covers registration and login, the bearer-token middleware, the
admin guard, and the post and comment handlers. Each handler is a pure function.
It takes the database state, the request fields and the authenticated user (if
any). It returns the reply (status code and message kind or documents) and, for
mutating handlers, the next state.

The database (`Model.Store`) is three finite maps keyed by document id:

- users: id → username, email, bcrypt digest, admin flag;
- posts: id → title, content, author, ordered list of comment ids;
- comments: id → content, author, parent post.

A counter `nextId` stands in for ObjectId generation, so ids are never reused.
bcrypt and jsonwebtoken are abstract:

- the key-derivation function is a parameter (`Crypto.Kdf`);
- the token codec is a pair of functions (`Crypto.Jwt`);
- the salt, the clock (seconds) and the signing secret are inputs.

The one fact assumed of the codec is stated as a hypothesis, `Crypto.Sound`:
decoding a signed token with the same secret returns its claims, and signed
tokens contain no space.

The shared authorization rule is `Model.MayModify`: allow an admin, or the author
of the resource. The handlers' contracts fix:

- the order of their checks, including which one fires first;
- that every rejected request leaves the state unchanged;
- the exact effect of every successful mutation.

Module `LinkBreaks` shows where the post/comment link (`Model.LinksIntact`)
breaks:

- Deleting a post leaves its comments behind, pointing at a missing post.
- Deleting a comment through a post it does not belong to removes the comment
  document. Its real parent keeps the id.
- A later post-scoped delete of that dangling id by a non-admin then answers
  500, because the handler reads `author` of a missing document. For an admin
  the permission test short-circuits before that read, so the delete succeeds,
  drops the dangling id and restores the link.

Three behaviours of the code the model keeps:

- `deletePost` checks that the post exists before checking for a user, so a
  missing post is 404 even without a user.
- The comment-scoped delete does not check that the comment belongs to the
  post, so it does not keep `Model.LinksIntact`.
- `protect` puts the stored user record on the request. The admin flag the
  handlers see is therefore the stored one, not the token's claim.

## Model

| member | source | states |
|---|---|---|
| Base.Split | middleware/authMiddleware.js:11 | `split(" ")` yields at least one field and no field contains the separator |
| Base.JoinOfSplit | middleware/authMiddleware.js:11 | joining the fields of a split with the separator gives back the original header |
| Base.SplitOfJoin | middleware/authMiddleware.js:11 | splitting a join of separator-free fields gives back the same fields |
| Base.Field | middleware/authMiddleware.js:11 | the indexed field of a split, missing (JavaScript `undefined`) when there are too few; never contains the separator |
| Base.TrimStart | controllers/commentController.js:20 | drops exactly the leading whitespace: a suffix, only whitespace dropped, no leading whitespace left |
| Base.TrimEnd | controllers/commentController.js:20 | drops exactly the trailing whitespace: a prefix, only whitespace dropped, no trailing whitespace left |
| Base.TrimEmptyIffAllWhitespace | controllers/commentController.js:20 | `content.trim()` is empty exactly when every character is JavaScript whitespace |
| Base.LeastExists | controllers/authController.js:47 | every non-empty finite set of ids has a least element |
| Base.Least | controllers/authController.js:47 | the chosen match is a member of the set and no larger than any other member |
| Crypto.Hash | controllers/authController.js:25 | the digest carries the salt and cost factor 10, and `bcrypt.compare` accepts the original password against it |
| Crypto.IssueClaims | controllers/authController.js:69-73 | the signed payload is the user's id and admin flag, issued now, expiring exactly seven days later |
| Crypto.Verify | middleware/authMiddleware.js:15 | a token verifies exactly when token and secret are non-empty, the signature decodes, and the expiry is still ahead; the result is the decoded payload |
| Crypto.SignThenVerify | controllers/authController.js:69-73 | a token signed now verifies to its claims with the same secret before seven days have passed and fails from then on |
| Model.EmptyStore | index.js:24 | the empty database satisfies `Valid`, `EmailsUnique` and `LinksIntact`; with the StoreInvariants lemmas, `Valid` and `EmailsUnique` hold on every run from it, while `LinksIntact` holds only until a post with comments is deleted or a comment is deleted through another post (module `LinkBreaks`) |
| Model.Without | controllers/postController.js:73 | the filter removes every occurrence of the id and keeps each other id as often as before; a list without the id is unchanged |
| Model.WithoutConcat | controllers/postController.js:73 | the filter distributes over concatenation, so the kept ids stay in their order |
| Model.Unlink | controllers/commentController.js:65-70 | the shared delete effect: only that post's list loses the id, only that comment document goes, users and other posts unchanged |
| PostController.GetPostById | controllers/postController.js:19-32 | an absent id gives exactly 404 "Post not found"; a present one gives 200 with that post |
| PostController.GetUserPosts | controllers/postController.js:108-116 | the reply holds exactly the posts whose author is the given user, as stored (author as an id) |
| PostController.CreatePost | controllers/postController.js:34-54 | no user gives 401 with no change; otherwise exactly one new post under a new id, author the user, no comments, reply 201, nothing else changed |
| PostController.DeletePost | controllers/postController.js:85-106 | 404 for a missing post even without a user, then 401 without a user, then 403 unless admin or author, all with no change; on success only that post is removed and the comments stay |
| PostController.DeleteComment | controllers/postController.js:56-83 | 404 for a missing post, 404 if the id is not in that post's list, for a listed id with no document 500 with no change for a non-admin but success for an admin (the permission test short-circuits), 403 unless admin or comment author, all with no change; on success the id is filtered out of the list and the comment deleted |
| CommentController.Populate | controllers/commentController.js:6-11 | the listed comments are documents of ids in the list; every listed id with a document appears; with no dangling ids it is exactly the list, in order |
| CommentController.PopulateOne | controllers/commentController.js:6-9 | a single id populates to its document, or to nothing when it has no document |
| CommentController.PopulateConcat | controllers/commentController.js:6-11 | populating a concatenation populates each part in turn, so list order is kept and each dangling id is dropped in place |
| CommentController.GetCommentsByPost | controllers/commentController.js:4-15 | an absent post gives exactly 404; otherwise 200 with the post's comments in list order |
| CommentController.AddComment | controllers/commentController.js:17-48 | blank or missing content gives 400 before any post lookup, then 404 for a missing post, with no change; on success one new comment authored by the user on that post, its id appended at the end of the post's list, reply 201 |
| CommentController.DeleteComment | controllers/commentController.js:50-76 | 404 for a missing post, then 404 for a missing comment, then 403 unless admin or comment author, all with no change; on success the comment is deleted and its id filtered out of the named post's list, whether or not it belongs there |
| AuthController.FindByEmail | controllers/authController.js:19 | finds a user with that email exactly when one exists, and then the earliest-issued one |
| AuthController.Register | controllers/authController.js:8-35 | any falsy field gives 400 with no change, then an email in use gives 400 with no change; on success exactly one new user holding the bcrypt digest, never the password, and the caller's admin flag, reply 201 |
| AuthController.Login | controllers/authController.js:37-97 | 400 for a falsy field, then 401 "User not found", then 401 "Invalid credentials", then 500 for a missing secret; on success a token over the user's id and admin flag and the user's public fields without the password |
| AuthMiddleware.BearerToken | middleware/authMiddleware.js:11 | the token is the second space-separated field and contains no space |
| AuthMiddleware.Protect | middleware/authMiddleware.js:4-35 | an absent header or one not starting with "Bearer" gives 401 "No token provided"; a token that fails verification gives 401 "Invalid token"; an unknown user gives 401 "User not found"; otherwise `next` exactly once with the stored user minus password |
| AuthMiddleware.AdminGuard | middleware/authMiddleware.js:38-44 | passes the request on exactly when a user is present and is an admin; otherwise 403 |
| AuthMiddleware.BearerTokenOfHeader | middleware/authMiddleware.js:9-11 | "Bearer " followed by a compact token passes the prefix test and yields that token |
| AuthMiddleware.BareBearerHasNoToken | middleware/authMiddleware.js:11 | the header "Bearer" has no second field, so no token is extracted |
| AuthMiddleware.TrailingSpaceGivesEmptyToken | middleware/authMiddleware.js:11 | the header "Bearer " yields the empty token |
| AuthMiddleware.MissingTokenIsInvalid | middleware/authMiddleware.js:11-15 | "Bearer" with no second field, or an empty one, is answered 401 "Invalid token", not "No token provided" |
| StoreInvariants.WithoutKeepsOnlyOriginals | controllers/postController.js:73 | the filtered list holds only ids of the original list, none equal to the removed id |
| StoreInvariants.UnlinkKeepsInvariants | controllers/commentController.js:65-70 | unlinking keeps ids fresh, and keeps the link intact when the comment belongs to that post |
| StoreInvariants.CreatePostKeepsInvariants | controllers/postController.js:42-50 | creating a post keeps ids fresh, the link intact and emails unique; the new id was unused and the post count grows by one |
| StoreInvariants.AttachKeepsValid | controllers/commentController.js:29-38 | writing a comment and appending its id keeps ids fresh |
| StoreInvariants.AttachKeepsLinks | controllers/commentController.js:29-38 | writing a comment and appending its id to its own post keeps the link intact |
| StoreInvariants.AddCommentKeepsInvariants | controllers/commentController.js:29-38 | adding a comment keeps ids fresh and the link intact; the new id was unused and the comment count grows by one |
| StoreInvariants.RegisterKeepsInvariants | controllers/authController.js:19-30 | registration keeps ids fresh, emails unique and the link intact; the new id was unused and the user count grows by one |
| StoreInvariants.AddUserKeepsValid | controllers/authController.js:26-28 | storing a user under the next id keeps ids fresh; the id was unused and the user count grows by one |
| StoreInvariants.AddUserKeepsEmailsUnique | controllers/authController.js:19-28 | storing a user whose email no one has keeps emails unique |
| StoreInvariants.DeletePostKeepsValid | controllers/postController.js:101 | deleting a post keeps ids fresh and emails unique |
| StoreInvariants.PostScopedDeleteKeepsInvariants | controllers/postController.js:72-77 | the post-scoped comment delete keeps ids fresh and the link intact |
| StoreInvariants.CommentScopedDeleteKeepsInvariants | controllers/commentController.js:65-70 | the comment-scoped delete keeps ids fresh, and keeps the link intact when the comment is deleted through its own post |
| LinkBreaks.DeletePostOrphansComments | controllers/postController.js:101 | after a successful post delete its comments remain, pointing at a missing post, and the link is broken whenever it had any |
| LinkBreaks.OnlyParentListsComment | controllers/postController.js:63 | on an intact store an id in a post's list is a comment of that post |
| LinkBreaks.ForeignDeleteLeavesDanglingId | controllers/commentController.js:57-70 | deleting a comment through another post removes its document, leaves the named post's list as it was, and leaves the id in the real parent's list |
| LinkBreaks.DanglingIdFaults | controllers/postController.js:63-68 | after such a delete, a non-admin's post-scoped delete of that id through the real parent answers 500 and changes nothing |
| LinkBreaks.DanglingIdAdminRepairs | controllers/postController.js:67-79 | after such a delete, an admin's post-scoped delete of that id through the real parent answers 200, drops the id from the parent's list, leaves the comment documents alone and restores the link |
| LinkBreaks.IntactStoreNeverFaults | controllers/postController.js:67-68 | on an intact store the post-scoped delete never answers 500 |
| LinkBreaks.ScopedDeletesAgree | controllers/postController.js:56-83 | on an intact store both delete routes give the same reply and state for a comment deleted through its own post |
| Sessions.RegisterThenLogin | controllers/authController.js:47-82 | after registering, logging in with the same email and password succeeds for the new user with the registered admin flag |
| Sessions.RegisterTwiceConflicts | controllers/authController.js:19-23 | a second registration with the same email gets 400 "Email already in use" and changes nothing |
| Sessions.LoginThenProtect | middleware/authMiddleware.js:9-26 | the login token sent as "Bearer <token>" resolves to the logged-in user until seven days after issue, and is an invalid token from then on |
| Sessions.AdminGuardSeesStoredFlag | middleware/authMiddleware.js:38-43 | behind `protect` the admin guard passes exactly the users whose stored admin flag is set |
| RoundTrips.CreateThenGet | controllers/postController.js:42-50 | a created post is found by its id and among its author's posts |
| RoundTrips.CreateThenDelete | controllers/postController.js:96-102 | deleting a just-created post as its author restores all three collections |
| RoundTrips.DeleteThenGet | controllers/postController.js:101 | a deleted post is then not found |
| RoundTrips.PopulateAppend | controllers/commentController.js:37 | appending a new id with its document appends its entry to the populated list |
| RoundTrips.AddThenList | controllers/commentController.js:36-38 | an added comment is listed last, after the comments that were listed before |
| RoundTrips.WithoutAppended | controllers/commentController.js:66 | filtering out a freshly appended id gives back the original list |
| RoundTrips.AttachThenUnlink | controllers/commentController.js:65-70 | unlinking a just-attached comment restores all three collections |
| RoundTrips.AddThenDelete | controllers/commentController.js:65-70 | deleting a just-added comment as its author, through either route, restores all three collections |
| RoundTrips.DeleteThenList | controllers/commentController.js:66-70 | after a successful comment delete the comment document is gone and the post's listing no longer shows it |

## Left out

- `getAllPosts`: it only lists every post with author and comment-author names joined in. That is a read-only display projection.
- The author-name `populate` in `getPostById`, `getAllPosts`, `getUserPosts`, `getCommentsByPost` (the nested populate of each comment's author) and `addComment`: replies carry the raw documents, with authors as ids.
- PostController.GetPostById: the reply carries the post's stored comment list, so unlike the populate in `getPostById` it keeps ids whose comment document is gone.
- PostController.DeleteComment / CommentController.DeleteComment: request ids are taken in their canonical spelling, as numbers. In the code the list test compares the raw `commentId` string with `c.toString()`, which is lower-case hex, while `findById` and `findByIdAndDelete` cast the string to an ObjectId regardless of case. A spelling that casts to the same ObjectId but differs as a string is not modelled: it gives 404 "Comment not found" on the post-scoped route, and on the comment-scoped route it deletes the document while leaving the id in the list, a further way the link breaks. `StoreInvariants.CommentScopedDeleteKeepsInvariants` and `LinkBreaks.ScopedDeletesAgree` hold for canonical spellings only.
- Store failures and ObjectId cast errors: the generic 400 and 500 catch branches are not modelled. The exception is the 500 the post-scoped comment delete gives a non-admin for a dangling id: reading `author` of the missing document throws.
- PostController.GetUserPosts: returns the matching posts as a map. The database's result order is not modelled, nor the author populate at controllers/postController.js:111, which shows each author as `{_id, username}`, or `null` once the user is gone.
- AuthController.FindByEmail: `findOne` picks the earliest-issued match, standing in for natural order. Registration keeps emails unique, so at most one user matches.
- models/User.js, models/Post.js and models/Comment.js are not part of this model. Schema validation, defaults and casting are therefore not modelled: a missing post title, or email lower-casing. The one exception is an absent `isAdmin`, which is taken to default to false.
- Request fields are strings or absent. A non-string `content` would make `trim` throw, and that is not modelled.
- bcrypt and JWT cryptography: hashing is an abstract key-derivation function, and the token codec is an abstract sign/decode pair under `Crypto.Sound`. Algorithm choice, clock tolerance and `nbf` are not modelled.
- Time is whole seconds supplied as an input. `Date.now()` is not modelled.
- ObjectId generation is a counter in the store. `Model.Valid` (every id in use is below the counter) stands for ObjectId freshness.
- Console logging, dotenv, server bootstrap, CORS and route wiring are I/O and configuration. Routing matters in two places. Five routes are mounted behind `protect`: `createPost`, `deletePost`, the post-scoped comment delete, `addComment` and the comment-scoped delete. The last three take a user that is always present. `PostController.CreatePost` and `PostController.DeletePost` keep the `!req.user` checks of `createPost` and `deletePost` as written, with an optional user, although through the routes those 401 branches are unreachable: `protect` answers 401 "No token provided" first.
- Concurrency: each handler is one atomic step. The non-atomic save-then-delete pair in the comment deletes is not modelled.

=== FILE: auth_controller.dfy ===
/**
 controllers/authController.js: registration and login. Hashing and token
 signing are the abstract functions of module Crypto; the salt, the clock and
 the signing secret are inputs.
 */
module AuthController {
  import opened Base
  import opened Crypto
  import opened Model

  /** `User.findOne({ email })`: the earliest-issued user with that email, if any. */
  function FindByEmail(users: map<UserId, User>, email: string): (r: Option<UserId>)
    ensures r.None? <==> forall id :: id in users ==> users[id].email != email
    ensures r.Some? ==> r.value in users && users[r.value].email == email
    ensures r.Some? ==> forall id :: id in users && users[id].email == email ==> r.value <= id
  {
    var matches := set id | id in users && users[id].email == email;
    assert forall id :: id in users && users[id].email == email ==> id in matches;
    if matches == {} then None else Some(Least(matches))
  }

  /** `POST /users/register`: all three fields must be truthy, then the email must
      be unused; on success one new user under the next id, holding the bcrypt
      digest of the password and the caller's admin flag (false when absent). */
  function Register(st: Store, username: Option<string>, email: Option<string>, password: Option<string>,
                    isAdmin: Option<bool>, kdf: Kdf, salt: nat): (s: Step)
    ensures !Truthy(username) || !Truthy(email) || !Truthy(password) ==>
      s == Reject(st, 400, FieldsRequired)
    ensures (&& Truthy(username) && Truthy(email) && Truthy(password)
             && exists id :: id in st.users && st.users[id].email == email.value) ==>
      s == Reject(st, 400, EmailInUse)
    ensures (&& Truthy(username) && Truthy(email) && Truthy(password)
             && forall id :: id in st.users ==> st.users[id].email != email.value) ==>
      var id := st.nextId;
      && s.response == Reply(201, Registered)
      && s.store.users.Keys == st.users.Keys + {id}
      && s.store.users[id].username == username.value
      && s.store.users[id].email == email.value
      && s.store.users[id].password == Hash(kdf, password.value, salt)
      && Compare(kdf, password.value, s.store.users[id].password)
      && s.store.users[id].isAdmin == isAdmin.GetOr(false)
      && (forall u :: u in st.users && u != id ==> s.store.users[u] == st.users[u])
      && s.store.posts == st.posts && s.store.comments == st.comments
      && s.store.nextId == id + 1
  {
    if !Truthy(username) || !Truthy(email) || !Truthy(password) then Reject(st, 400, FieldsRequired)
    else if FindByEmail(st.users, email.value).Some? then Reject(st, 400, EmailInUse)
    else
      var user := User(username.value, email.value, Hash(kdf, password.value, salt), isAdmin.GetOr(false));
      Step(Reply(201, Registered), AddUser(st, user))
  }

  /** `POST /users/login`: fields, then the user, then the password, then the
      signing secret; on success a token over `{ id, isAdmin }` valid for seven
      days and the user's public fields. Login never changes the database. */
  function Login(st: Store, email: Option<string>, password: Option<string>,
                 kdf: Kdf, jwt: Jwt, secret: Option<string>, now: int): (r: Response)
    ensures !Truthy(email) || !Truthy(password) ==> r == Reply(400, FieldsRequired)
    ensures Truthy(email) && Truthy(password) && FindByEmail(st.users, email.value).None? ==>
      r == Reply(401, UserNotFound)
    ensures Truthy(email) && Truthy(password) && FindByEmail(st.users, email.value).Some? ==>
      var id := FindByEmail(st.users, email.value).value;
      var u := st.users[id];
      if !Compare(kdf, password.value, u.password) then r == Reply(401, InvalidCredentials)
      else if !Truthy(secret) then r == Reply(500, MissingSecret)
      else
        && r.status == 200
        && r.body == Session(jwt.sign(IssueClaims(id, u.isAdmin, now), secret.value),
                             id, u.username, u.email, u.isAdmin)
  {
    if !Truthy(email) || !Truthy(password) then Reply(400, FieldsRequired)
    else
      match FindByEmail(st.users, email.value)
      case None => Reply(401, UserNotFound)
      case Some(id) =>
        var u := st.users[id];
        if !Compare(kdf, password.value, u.password) then Reply(401, InvalidCredentials)
        else if !Truthy(secret) then Reply(500, MissingSecret)
        else
          var token := jwt.sign(IssueClaims(id, u.isAdmin, now), secret.value);
          Response(200, Session(token, id, u.username, u.email, u.isAdmin))
  }
}

=== FILE: auth_middleware.dfy ===
/**
 middleware/authMiddleware.js: the bearer-token guard `protect` and the
 admin guard `isAdmin`. A guard either calls `next` once with the request's
 user or answers the request itself.
 */
module AuthMiddleware {
  import opened Base
  import opened Crypto
  import opened Model

  /** The outcome of a guard: `next()` with the user on the request, or a reply. */
  datatype Guard = Next(user: Principal) | Halt(response: Response)

  /** `header.split(" ")[1]`: the second space-separated field, if there is one. */
  function BearerToken(header: string): (r: Option<string>)
    ensures r.Some? ==> ' ' !in r.value
  {
    Field(header, ' ', 1)
  }

  /** `protect`: the header must be present and start with "Bearer"; the second
      field must verify as a token; the token's user must still exist. The user
      put on the request is the stored record without its password, so its admin
      flag is the stored one, not the token's claim. */
  function Protect(st: Store, header: Option<string>, jwt: Jwt, secret: Option<string>, now: int): (g: Guard)
    ensures !Truthy(header) || !StartsWith(header.value, "Bearer") ==>
      g == Halt(Reply(401, NoTokenProvided))
    ensures Truthy(header) && StartsWith(header.value, "Bearer") ==>
      match Verify(jwt, BearerToken(header.value), secret, now)
      case None => g == Halt(Reply(401, InvalidToken))
      case Some(c) =>
        if c.id in st.users then g == Next(PublicView(c.id, st.users[c.id]))
        else g == Halt(Reply(401, TokenUserNotFound))
    ensures g.Halt? ==> g.response.status == 401
    ensures g.Next? ==> g.user.id in st.users && g.user == PublicView(g.user.id, st.users[g.user.id])
  {
    if !Truthy(header) || !StartsWith(header.value, "Bearer") then Halt(Reply(401, NoTokenProvided))
    else
      match Verify(jwt, BearerToken(header.value), secret, now)
      case None => Halt(Reply(401, InvalidToken))
      case Some(c) =>
        if c.id in st.users then Next(PublicView(c.id, st.users[c.id]))
        else Halt(Reply(401, TokenUserNotFound))
  }

  /** `isAdmin`: passes the request on exactly when a user is present and is an admin. */
  function AdminGuard(user: Option<Principal>): (g: Guard)
    ensures g.Next? <==> user.Some? && user.value.isAdmin
    ensures g.Next? ==> g.user == user.value
    ensures g.Halt? ==> g.response == Reply(403, AdminsOnly)
  {
    if user.Some? && user.value.isAdmin then Next(user.value) else Halt(Reply(403, AdminsOnly))
  }

  /** The header "Bearer <token>" carries a compact token as its second field. */
  lemma BearerTokenOfHeader(token: string)
    requires TokenShaped(token)
    ensures StartsWith("Bearer " + token, "Bearer")
    ensures BearerToken("Bearer " + token) == Some(token)
  {
    var fields := ["Bearer", token];
    assert Join(fields[1..], ' ') == token;
    assert Join(fields, ' ') == "Bearer " + token;
    SplitOfJoin(fields, ' ');
  }

  lemma BareBearerHasNoToken()
    ensures BearerToken("Bearer") == None
  {
    SplitWithoutSeparator("Bearer", ' ');
  }

  lemma TrailingSpaceGivesEmptyToken()
    ensures BearerToken("Bearer ") == Some("")
  {
    var fields := ["Bearer", ""];
    assert Join(fields[1..], ' ') == "";
    assert Join(fields, ' ') == "Bearer ";
    SplitOfJoin(fields, ' ');
  }

  /** A "Bearer" header with no second field, or an empty one, gets past the
      prefix test and then fails verification. */
  lemma MissingTokenIsInvalid(st: Store, jwt: Jwt, secret: Option<string>, now: int)
    ensures Protect(st, Some("Bearer"), jwt, secret, now) == Halt(Reply(401, InvalidToken))
    ensures Protect(st, Some("Bearer "), jwt, secret, now) == Halt(Reply(401, InvalidToken))
  {
    BareBearerHasNoToken();
    TrailingSpaceGivesEmptyToken();
    assert StartsWith("Bearer", "Bearer") && StartsWith("Bearer ", "Bearer");
  }
}

=== FILE: base.dfy ===
/**
 The small pieces of JavaScript semantics the request handlers lean on:
 optional request fields and their truthiness, `startsWith`, `split(" ")`,
 `trim()`, and picking the least element of a finite set of ids.
 */
module Base {

  /** A request field or lookup that may be missing (`undefined`/`null`). */
  datatype Option<T> = None | Some(value: T) {

    /** The value, or the given default when missing. */
    function GetOr(default: T): T {
      match this
      case Some(v) => v
      case None => default
    }
  }

  /** JavaScript truthiness of a field holding a string or nothing:
      `undefined`, `null` and the empty string are falsy. */
  predicate Truthy(field: Option<string>) {
    field.Some? && field.value != ""
  }

  /** `s.startsWith(prefix)`. */
  predicate StartsWith(s: string, prefix: string) {
    |prefix| <= |s| && s[..|prefix|] == prefix
  }

  // ----- String.prototype.split with a one-character separator -----

  /** `s.split(sep)`: the maximal runs between separators, empty runs included,
      so there is always one more field than there are separators. */
  function Split(s: string, sep: char): (fields: seq<string>)
    ensures |fields| >= 1
    ensures forall i :: 0 <= i < |fields| ==> sep !in fields[i]
    decreases |s|
  {
    if |s| == 0 then [""]
    else
      var rest := Split(s[1..], sep);
      if s[0] == sep then [""] + rest
      else [[s[0]] + rest[0]] + rest[1..]
  }

  /** `fields.join(sep)`: the inverse of `Split`. */
  function Join(fields: seq<string>, sep: char): string
    requires |fields| >= 1
  {
    if |fields| == 1 then fields[0]
    else fields[0] + [sep] + Join(fields[1..], sep)
  }

  /** The field at position `i` of `s.split(sep)`, missing when there are too few
      (JavaScript yields `undefined` there). */
  function Field(s: string, sep: char, i: nat): (r: Option<string>)
    ensures r.Some? ==> sep !in r.value
  {
    var fields := Split(s, sep);
    if i < |fields| then Some(fields[i]) else None
  }

  /** Splitting loses nothing: joining the fields back gives the original string. */
  lemma {:induction false} JoinOfSplit(s: string, sep: char)
    ensures Join(Split(s, sep), sep) == s
    decreases |s|
  {
    if |s| > 0 {
      var rest := Split(s[1..], sep);
      JoinOfSplit(s[1..], sep);
      if s[0] == sep {
        assert ([""] + rest)[1..] == rest;
      } else if |rest| > 1 {
        var fields := [[s[0]] + rest[0]] + rest[1..];
        assert fields[1..] == rest[1..];
        assert Join(rest, sep) == rest[0] + [sep] + Join(rest[1..], sep);
      }
      assert s == [s[0]] + s[1..];
    }
  }

  lemma {:induction false} SplitWithoutSeparator(a: string, sep: char)
    requires sep !in a
    ensures Split(a, sep) == [a]
    decreases |a|
  {
    if |a| > 0 {
      SplitWithoutSeparator(a[1..], sep);
      assert a == [a[0]] + a[1..];
    }
  }

  lemma {:induction false} SplitAtSeparator(a: string, sep: char, b: string)
    requires sep !in a
    ensures Split(a + [sep] + b, sep) == [a] + Split(b, sep)
    decreases |a|
  {
    var s := a + [sep] + b;
    if |a| == 0 {
      assert s[0] == sep && s[1..] == b;
    } else {
      assert s[0] == a[0] && s[1..] == a[1..] + [sep] + b;
      SplitAtSeparator(a[1..], sep, b);
      assert [a[0]] + a[1..] == a;
    }
  }

  /** Joining separator-free fields and splitting again gives the same fields back. */
  lemma {:induction false} SplitOfJoin(fields: seq<string>, sep: char)
    requires |fields| >= 1
    requires forall i :: 0 <= i < |fields| ==> sep !in fields[i]
    ensures Split(Join(fields, sep), sep) == fields
    decreases |fields|
  {
    if |fields| == 1 {
      SplitWithoutSeparator(fields[0], sep);
    } else {
      SplitOfJoin(fields[1..], sep);
      SplitAtSeparator(fields[0], sep, Join(fields[1..], sep));
      assert [fields[0]] + fields[1..] == fields;
    }
  }

  // ----- String.prototype.trim -----

  /** The code points `trim()` strips: ECMAScript's WhiteSpace (tab, vertical tab,
      form feed, space, no-break space, byte-order mark and the Unicode space
      separators) and LineTerminator (LF, CR, line and paragraph separators). */
  predicate IsJsWhitespace(c: char) {
    var n := c as int;
    || n == 0x09 || n == 0x0A || n == 0x0B || n == 0x0C || n == 0x0D
    || n == 0x20 || n == 0xA0 || n == 0x1680
    || (0x2000 <= n <= 0x200A)
    || n == 0x2028 || n == 0x2029 || n == 0x202F || n == 0x205F
    || n == 0x3000 || n == 0xFEFF
  }

  /** Drops leading whitespace: the result is a suffix of `s`, only whitespace
      was dropped, and it does not start with whitespace. */
  function TrimStart(s: string): (r: string)
    ensures |r| <= |s| && r == s[|s| - |r|..]
    ensures forall i :: 0 <= i < |s| - |r| ==> IsJsWhitespace(s[i])
    ensures r == [] || !IsJsWhitespace(r[0])
    decreases |s|
  {
    if |s| > 0 && IsJsWhitespace(s[0]) then TrimStart(s[1..]) else s
  }

  /** Drops trailing whitespace: the result is a prefix of `s`, only whitespace
      was dropped, and it does not end with whitespace. */
  function TrimEnd(s: string): (r: string)
    ensures |r| <= |s| && r == s[..|r|]
    ensures forall i :: |r| <= i < |s| ==> IsJsWhitespace(s[i])
    ensures r == [] || !IsJsWhitespace(r[|r| - 1])
    decreases |s|
  {
    if |s| > 0 && IsJsWhitespace(s[|s| - 1]) then TrimEnd(s[..|s| - 1]) else s
  }

  /** `s.trim()`. */
  function Trim(s: string): string {
    TrimEnd(TrimStart(s))
  }

  /** `s.trim()` is empty exactly when every character of `s` is whitespace. */
  lemma TrimEmptyIffAllWhitespace(s: string)
    ensures Trim(s) == "" <==> forall i :: 0 <= i < |s| ==> IsJsWhitespace(s[i])
  {
    var t := TrimStart(s);
    if Trim(s) == "" {
      assert |t| == 0;
    }
    if forall i :: 0 <= i < |s| ==> IsJsWhitespace(s[i]) {
      assert |t| == 0;
    }
  }

  // ----- least element of a finite set of ids -----

  /** `m` is the least element of `s`. */
  predicate IsLeast(m: nat, s: set<nat>) {
    m in s && forall y :: y in s ==> m <= y
  }

  lemma {:induction false} LeastExists(s: set<nat>)
    requires s != {}
    ensures exists m :: IsLeast(m, s)
    decreases |s|
  {
    var x :| x in s;
    var rest := s - {x};
    if rest == {} {
      assert s == {x};
      assert IsLeast(x, s);
    } else {
      LeastExists(rest);
      var m :| IsLeast(m, rest);
      var least := if x < m then x else m;
      forall y | y in s
        ensures least <= y
      {
        if y != x {
          assert y in rest;
        }
      }
      assert IsLeast(least, s);
    }
  }

  /** The least element of a non-empty finite set of ids. */
  function Least(s: set<nat>): (m: nat)
    requires s != {}
    ensures m in s
    ensures forall y :: y in s ==> m <= y
  {
    LeastExists(s);
    var m :| IsLeast(m, s);
    m
  }
}

=== FILE: comment_controller.dfy ===
/**
 controllers/commentController.js: listing a post's comments, adding one, and
 the comment-scoped delete (`DELETE /comments/:postId/:commentId`).
 */
module CommentController {
  import opened Base
  import opened Model

  /** Mongoose's array `populate`: each id in the list replaced by its document,
      in list order; ids with no document behind them are dropped. */
  function Populate(ids: seq<CommentId>, comments: map<CommentId, Comment>): (r: seq<(CommentId, Comment)>)
    ensures |r| <= |ids|
    ensures forall k :: 0 <= k < |r| ==> r[k].0 in ids && r[k].0 in comments && comments[r[k].0] == r[k].1
    ensures forall x :: x in ids && x in comments ==> exists k :: 0 <= k < |r| && r[k].0 == x
    ensures (forall k :: 0 <= k < |ids| ==> ids[k] in comments) ==>
      |r| == |ids| && forall k :: 0 <= k < |r| ==> r[k].0 == ids[k]
  {
    if |ids| == 0 then []
    else
      var rest := Populate(ids[1..], comments);
      assert ids == [ids[0]] + ids[1..];
      if ids[0] in comments then
        var r := [(ids[0], comments[ids[0]])] + rest;
        assert r[0].0 == ids[0];
        assert forall k :: 1 <= k < |r| ==> r[k] == rest[k - 1];
        assert forall k :: 0 <= k < |rest| ==> r[k + 1] == rest[k];
        r
      else rest
  }

  /** A single id populates to its document, or to nothing when it dangles. */
  lemma PopulateOne(x: CommentId, comments: map<CommentId, Comment>)
    ensures x !in comments ==> Populate([x], comments) == []
    ensures x in comments ==> Populate([x], comments) == [(x, comments[x])]
  {
    assert [x][1..] == [];
  }

  /** Populating a concatenation populates each part in turn: with `PopulateOne`
      this fixes the order and multiplicity of the entries, dangling
      ids or not. */
  lemma {:induction false} PopulateConcat(a: seq<CommentId>, b: seq<CommentId>, comments: map<CommentId, Comment>)
    ensures Populate(a + b, comments) == Populate(a, comments) + Populate(b, comments)
    decreases |a|
  {
    if |a| == 0 {
      assert a + b == b;
    } else {
      assert (a + b)[0] == a[0] && (a + b)[1..] == a[1..] + b;
      PopulateConcat(a[1..], b, comments);
    }
  }

  /** `GET /comments/:postId`. */
  function GetCommentsByPost(st: Store, postId: PostId): (r: Response)
    ensures postId !in st.posts <==> r == Reply(404, PostNotFound)
    ensures postId in st.posts ==>
      r.status == 200 && r.body == CommentDocs(Populate(st.posts[postId].comments, st.comments))
  {
    if postId !in st.posts then Reply(404, PostNotFound)
    else Response(200, CommentDocs(Populate(st.posts[postId].comments, st.comments)))
  }

  /** The content test `!content || !content.trim()`. */
  predicate Blank(content: Option<string>) {
    !Truthy(content) || Trim(content.value) == ""
  }

  /** `POST /comments/:postId` (behind `protect`, so a user is present): blank
      content is refused before the post is looked up; on success a new comment
      under the next id, authored by the user, its id appended to the post's list. */
  function AddComment(st: Store, postId: PostId, content: Option<string>, user: Principal): (s: Step)
    ensures Blank(content) ==> s == Reject(st, 400, EmptyComment)
    ensures !Blank(content) && postId !in st.posts ==> s == Reject(st, 404, PostNotFound)
    ensures !Blank(content) && postId in st.posts ==>
      var id := st.nextId;
      var comment := Comment(content.value, user.id, postId);
      && s.response == Response(201, CommentDoc(id, comment))
      && s.store.comments.Keys == st.comments.Keys + {id}
      && s.store.comments[id] == comment
      && (forall c :: c in st.comments && c != id ==> s.store.comments[c] == st.comments[c])
      && s.store.posts.Keys == st.posts.Keys
      && s.store.posts[postId].comments == st.posts[postId].comments + [id]
      && s.store.posts[postId].(comments := []) == st.posts[postId].(comments := [])
      && (forall p :: p in st.posts && p != postId ==> s.store.posts[p] == st.posts[p])
      && s.store.users == st.users && s.store.nextId == id + 1
  {
    if Blank(content) then Reject(st, 400, EmptyComment)
    else if postId !in st.posts then Reject(st, 404, PostNotFound)
    else
      var comment := Comment(content.value, user.id, postId);
      Step(Response(201, CommentDoc(st.nextId, comment)), Attach(st, postId, comment))
  }

  /** `DELETE /comments/:postId/:commentId` (behind `protect`): the post, then the
      comment document by its own id, then the admin-or-author rule. The id is
      filtered out of `postId`'s list whether or not the comment belongs there. */
  function DeleteComment(st: Store, postId: PostId, commentId: CommentId, user: Principal): (s: Step)
    ensures postId !in st.posts ==> s == Reject(st, 404, PostNotFound)
    ensures postId in st.posts && commentId !in st.comments ==> s == Reject(st, 404, CommentNotFound)
    ensures postId in st.posts && commentId in st.comments ==>
      if MayModify(user, st.comments[commentId].author)
      then s == Step(Reply(200, CommentDeleted), Unlink(st, postId, commentId))
      else s == Reject(st, 403, CommentDeleteForbidden)
  {
    if postId !in st.posts then Reject(st, 404, PostNotFound)
    else if commentId !in st.comments then Reject(st, 404, CommentNotFound)
    else if !MayModify(user, st.comments[commentId].author) then Reject(st, 403, CommentDeleteForbidden)
    else Step(Reply(200, CommentDeleted), Unlink(st, postId, commentId))
  }
}

=== FILE: crypto.dfy ===
/**
 Password hashing (bcrypt) and session tokens (jsonwebtoken) as the handlers
 see them. Neither is modelled cryptographically: the key-derivation function
 and the token codec are parameters, and the only facts the handlers rely on
 are stated as hypotheses (`Compare` accepts what `Hash` produced by
 construction; `Sound` says decoding a signed token with the same secret gives
 its claims back).
 */
module Crypto {
  import opened Base

  /** The cost factor `register` passes to `bcrypt.hash`. */
  const SaltRounds: nat := 10

  /** `expiresIn: "7d"`, in seconds (jsonwebtoken keeps `iat` and `exp` in seconds). */
  const TokenLifetime: int := 7 * 24 * 60 * 60

  /** bcrypt's one-way derivation: (salt, cost, password) to an image. */
  type Kdf = (nat, nat, string) -> int

  /** A stored bcrypt hash: salt and cost travel with the image, the password does not. */
  datatype Digest = Digest(salt: nat, cost: nat, image: int)

  /** `bcrypt.compare(password, digest)`: re-derive with the digest's own salt and cost. */
  predicate Compare(kdf: Kdf, password: string, digest: Digest) {
    kdf(digest.salt, digest.cost, password) == digest.image
  }

  /** `bcrypt.hash(password, 10)` with the random salt supplied by the caller. */
  function Hash(kdf: Kdf, password: string, salt: nat): (d: Digest)
    ensures d.salt == salt && d.cost == SaltRounds
    ensures Compare(kdf, password, d)
  {
    Digest(salt, SaltRounds, kdf(salt, SaltRounds, password))
  }

  /** A JWT payload: the signed fields plus the issue and expiry times (seconds). */
  datatype Claims = Claims(id: nat, isAdmin: bool, iat: int, exp: int)

  /** The token codec: `sign(claims, secret)` and the signature-checking decode. */
  datatype Jwt = Jwt(sign: (Claims, string) -> string, decode: (string, string) -> Option<Claims>)

  /** A compact JWT is non-empty and contains no space (base64url parts joined by dots). */
  predicate TokenShaped(token: string) {
    token != "" && ' ' !in token
  }

  /** What the handlers rely on of jsonwebtoken: signed tokens are compact, and
      decoding one with the secret it was signed with returns its claims. */
  ghost predicate Sound(jwt: Jwt) {
    forall c: Claims, secret: string ::
      TokenShaped(jwt.sign(c, secret)) && jwt.decode(jwt.sign(c, secret), secret) == Some(c)
  }

  /** The payload `login` signs: `{ id, isAdmin }` with `iat = now` and a seven-day expiry. */
  function IssueClaims(id: nat, isAdmin: bool, now: int): (c: Claims)
    ensures c.id == id && c.isAdmin == isAdmin
    ensures c.exp - c.iat == TokenLifetime && c.iat == now
  {
    Claims(id, isAdmin, now, now + TokenLifetime)
  }

  /** `jwt.verify(token, secret)` at time `now`: a missing or empty token or secret
      is an error, so is a token whose signature does not check, and so is one
      whose expiry has been reached. */
  function Verify(jwt: Jwt, token: Option<string>, secret: Option<string>, now: int): (r: Option<Claims>)
    ensures r.Some? <==>
      && Truthy(token) && Truthy(secret)
      && jwt.decode(token.value, secret.value).Some?
      && now < jwt.decode(token.value, secret.value).value.exp
    ensures r.Some? ==> r == jwt.decode(token.value, secret.value)
  {
    if !Truthy(token) || !Truthy(secret) then None
    else
      match jwt.decode(token.value, secret.value)
      case None => None
      case Some(c) => if now < c.exp then Some(c) else None
  }

  /** A token signed at `now` verifies with the same secret, to the signed claims,
      exactly until seven days have passed. */
  lemma SignThenVerify(jwt: Jwt, id: nat, isAdmin: bool, secret: string, now: int, later: int)
    requires Sound(jwt)
    requires secret != ""
    ensures var c := IssueClaims(id, isAdmin, now);
      Verify(jwt, Some(jwt.sign(c, secret)), Some(secret), later)
        == if later < now + TokenLifetime then Some(c) else None
  {
    var c := IssueClaims(id, isAdmin, now);
    assert TokenShaped(jwt.sign(c, secret)) && jwt.decode(jwt.sign(c, secret), secret) == Some(c);
  }
}

=== FILE: invariants.dfy ===
/**
 Store invariants across the mutating handlers: ids stay fresh (`Valid`),
 emails stay unique, and which handlers keep the post/comment link intact.
 */
module StoreInvariants {
  import opened Base
  import opened Crypto
  import opened Model
  import PostController
  import CommentController
  import AuthController

  /** Filtering a list only ever removes ids. */
  lemma WithoutKeepsOnlyOriginals(ids: seq<CommentId>, id: CommentId)
    ensures forall k :: 0 <= k < |Without(ids, id)| ==> Without(ids, id)[k] in ids && Without(ids, id)[k] != id
  {
    var r := Without(ids, id);
    forall k | 0 <= k < |r|
      ensures r[k] in ids && r[k] != id
    {
      assert r[k] in multiset(r);
      assert multiset(ids)[r[k]] == multiset(r)[r[k]];
    }
  }

  /** Unlinking a comment keeps ids fresh, and keeps the link intact when the
      comment belongs to the post it is unlinked from. */
  lemma UnlinkKeepsInvariants(st: Store, postId: PostId, commentId: CommentId)
    requires postId in st.posts
    ensures Valid(st) ==> Valid(Unlink(st, postId, commentId))
    ensures LinksIntact(st) && commentId in st.comments && st.comments[commentId].post == postId ==>
      LinksIntact(Unlink(st, postId, commentId))
  {
    var r := Unlink(st, postId, commentId);
    WithoutKeepsOnlyOriginals(st.posts[postId].comments, commentId);
    if LinksIntact(st) && commentId in st.comments && st.comments[commentId].post == postId {
      forall c | c in r.comments
        ensures r.comments[c].post in r.posts && c in r.posts[r.comments[c].post].comments
      {
        var p := st.comments[c].post;
        if p == postId {
          var ids := st.posts[postId].comments;
          assert multiset(Without(ids, commentId))[c] == multiset(ids)[c];
          assert c in multiset(ids);
        }
      }
      forall p, i | p in r.posts && 0 <= i < |r.posts[p].comments|
        ensures r.posts[p].comments[i] in r.comments && r.comments[r.posts[p].comments[i]].post == p
      {
        var x := r.posts[p].comments[i];
        if p == postId {
          assert x in st.posts[p].comments && x != commentId;
          var j :| 0 <= j < |st.posts[p].comments| && st.posts[p].comments[j] == x;
        } else {
          assert x == st.posts[p].comments[i];
          assert st.comments[x].post == p;
        }
      }
    }
  }

  /** `createPost` keeps every invariant; the new post's id was unused. */
  lemma CreatePostKeepsInvariants(st: Store, title: string, content: string, user: Option<Principal>)
    requires Valid(st)
    ensures var s := PostController.CreatePost(st, title, content, user);
      && Valid(s.store)
      && (LinksIntact(st) ==> LinksIntact(s.store))
      && (EmailsUnique(st.users) ==> EmailsUnique(s.store.users))
      && (user.Some? ==> st.nextId !in st.posts && |s.store.posts| == |st.posts| + 1)
  {
    var s := PostController.CreatePost(st, title, content, user);
    if user.Some? {
      var id := st.nextId;
      assert s.store.posts.Keys == st.posts.Keys + {id};
      if LinksIntact(st) {
        forall p, i | p in s.store.posts && 0 <= i < |s.store.posts[p].comments|
          ensures s.store.posts[p].comments[i] in s.store.comments
            && s.store.comments[s.store.posts[p].comments[i]].post == p
        {
          assert p != id;
        }
      }
    }
  }

  lemma AttachKeepsValid(st: Store, postId: PostId, comment: Comment)
    requires Valid(st) && postId in st.posts
    ensures Valid(Attach(st, postId, comment))
  {
    var r := Attach(st, postId, comment);
    forall p, i | p in r.posts && 0 <= i < |r.posts[p].comments|
      ensures r.posts[p].comments[i] < r.nextId
    {
      if p == postId && i == |st.posts[p].comments| {
      } else {
        assert r.posts[p].comments[i] == st.posts[p].comments[i];
      }
    }
  }

  lemma AttachKeepsLinks(st: Store, postId: PostId, comment: Comment)
    requires Valid(st) && LinksIntact(st) && postId in st.posts && comment.post == postId
    ensures LinksIntact(Attach(st, postId, comment))
  {
    var r := Attach(st, postId, comment);
    var id := st.nextId;
    forall c | c in r.comments
      ensures r.comments[c].post in r.posts && c in r.posts[r.comments[c].post].comments
    {
      if c == id {
        assert r.posts[postId].comments[|st.posts[postId].comments|] == id;
      } else {
        var p := st.comments[c].post;
        var j :| 0 <= j < |st.posts[p].comments| && st.posts[p].comments[j] == c;
        assert r.posts[p].comments[j] == c;
      }
    }
    forall p, i | p in r.posts && 0 <= i < |r.posts[p].comments|
      ensures r.posts[p].comments[i] in r.comments && r.comments[r.posts[p].comments[i]].post == p
    {
      if p == postId && i == |st.posts[p].comments| {
      } else {
        var x := st.posts[p].comments[i];
        assert r.posts[p].comments[i] == x;
        assert x != id;
      }
    }
  }

  /** `addComment` keeps every invariant; the new comment's id was unused. */
  lemma AddCommentKeepsInvariants(st: Store, postId: PostId, content: Option<string>, user: Principal)
    requires Valid(st)
    ensures var s := CommentController.AddComment(st, postId, content, user);
      && Valid(s.store)
      && (LinksIntact(st) ==> LinksIntact(s.store))
      && (s.response.status == 201 ==> st.nextId !in st.comments && |s.store.comments| == |st.comments| + 1)
  {
    var s := CommentController.AddComment(st, postId, content, user);
    if s.response.status == 201 {
      var comment := Comment(content.value, user.id, postId);
      assert s.store == Attach(st, postId, comment);
      assert s.store.comments.Keys == st.comments.Keys + {st.nextId};
      AttachKeepsValid(st, postId, comment);
      if LinksIntact(st) {
        AttachKeepsLinks(st, postId, comment);
      }
    }
  }

  /** `register` keeps ids fresh and emails unique, and touches neither posts nor comments. */
  lemma RegisterKeepsInvariants(st: Store, username: Option<string>, email: Option<string>,
                                password: Option<string>, isAdmin: Option<bool>, kdf: Kdf, salt: nat)
    requires Valid(st)
    ensures var s := AuthController.Register(st, username, email, password, isAdmin, kdf, salt);
      && Valid(s.store)
      && (EmailsUnique(st.users) ==> EmailsUnique(s.store.users))
      && (LinksIntact(st) ==> LinksIntact(s.store))
      && (s.response.status == 201 ==> st.nextId !in st.users && |s.store.users| == |st.users| + 1)
  {
    var s := AuthController.Register(st, username, email, password, isAdmin, kdf, salt);
    if s.response.status == 201 {
      var u := s.store.users[st.nextId];
      assert s.store == AddUser(st, u);
      assert forall id :: id in st.users ==> st.users[id].email != u.email;
      AddUserKeepsValid(st, u);
      if EmailsUnique(st.users) {
        AddUserKeepsEmailsUnique(st, u);
      }
    } else {
      assert s.store == st;
    }
  }

  /** Adding a user under the next id keeps ids fresh and grows the user count by one. */
  lemma AddUserKeepsValid(st: Store, u: User)
    requires Valid(st)
    ensures Valid(AddUser(st, u))
    ensures st.nextId !in st.users && |AddUser(st, u).users| == |st.users| + 1
  {
    assert AddUser(st, u).users.Keys == st.users.Keys + {st.nextId};
  }

  /** Adding a user whose email no one else has keeps emails unique. */
  lemma AddUserKeepsEmailsUnique(st: Store, u: User)
    requires EmailsUnique(st.users)
    requires forall id :: id in st.users ==> st.users[id].email != u.email
    ensures EmailsUnique(AddUser(st, u).users)
  {
    var users := AddUser(st, u).users;
    forall a, b | a in users && b in users && users[a].email == users[b].email
      ensures a == b
    {
      if a != st.nextId && b != st.nextId {
        assert st.users[a].email == st.users[b].email;
      }
    }
  }

  /** `deletePost` keeps ids fresh and emails unique. */
  lemma DeletePostKeepsValid(st: Store, id: PostId, user: Option<Principal>)
    requires Valid(st)
    ensures var s := PostController.DeletePost(st, id, user);
      Valid(s.store) && (EmailsUnique(st.users) ==> EmailsUnique(s.store.users))
  {
  }

  /** The post-scoped comment delete keeps every invariant. */
  lemma PostScopedDeleteKeepsInvariants(st: Store, postId: PostId, commentId: CommentId, user: Principal)
    ensures var s := PostController.DeleteComment(st, postId, commentId, user);
      && (Valid(st) ==> Valid(s.store))
      && (LinksIntact(st) ==> LinksIntact(s.store))
  {
    if postId in st.posts {
      UnlinkKeepsInvariants(st, postId, commentId);
      var ids := st.posts[postId].comments;
      if LinksIntact(st) && commentId in ids && commentId in st.comments {
        var j :| 0 <= j < |ids| && ids[j] == commentId;
        assert st.comments[ids[j]].post == postId;
      }
    }
  }

  /** The comment-scoped delete keeps ids fresh, and keeps the link intact when
      the comment is deleted through its own post. */
  lemma CommentScopedDeleteKeepsInvariants(st: Store, postId: PostId, commentId: CommentId, user: Principal)
    ensures var s := CommentController.DeleteComment(st, postId, commentId, user);
      && (Valid(st) ==> Valid(s.store))
      && (LinksIntact(st) && (commentId in st.comments ==> st.comments[commentId].post == postId) ==>
            LinksIntact(s.store))
  {
    if postId in st.posts {
      UnlinkKeepsInvariants(st, postId, commentId);
    }
  }
}

=== FILE: link_breaks.dfy ===
/**
 Where the post/comment link breaks. Deleting a post leaves its comments
 behind, and deleting a comment through a post it does not belong to leaves
 its id dangling in the real parent's list; a later post-scoped delete of that
 id then faults. On an intact store the two comment deletes agree.
 */
module LinkBreaks {
  import opened Base
  import opened Model
  import PostController
  import CommentController
  import StoreInvariants

  /** A successful `deletePost` orphans the post's comments: they stay in the
      store, pointing at a post that no longer exists, and the link is broken
      whenever the post had any. */
  lemma DeletePostOrphansComments(st: Store, id: PostId, user: Principal)
    requires id in st.posts && MayModify(user, st.posts[id].author)
    ensures var s := PostController.DeletePost(st, id, Some(user));
      && s.response.status == 200
      && (forall c :: c in st.comments && st.comments[c].post == id ==>
            c in s.store.comments && s.store.comments[c].post !in s.store.posts)
      && (LinksIntact(st) && |st.posts[id].comments| > 0 ==> !LinksIntact(s.store))
  {
    var s := PostController.DeletePost(st, id, Some(user));
    if LinksIntact(st) && |st.posts[id].comments| > 0 {
      var c := st.posts[id].comments[0];
      assert c in st.comments && st.comments[c].post == id;
      assert c in s.store.comments && s.store.comments[c].post !in s.store.posts;
    }
  }

  /** On an intact store a comment's id lies only in its own post's list. */
  lemma OnlyParentListsComment(st: Store, p: PostId, c: CommentId)
    requires LinksIntact(st) && p in st.posts && c in st.posts[p].comments
    ensures c in st.comments && st.comments[c].post == p
  {
    var i :| 0 <= i < |st.posts[p].comments| && st.posts[p].comments[i] == c;
  }

  /** Deleting a comment through a post `postId` other than its parent: the
      comment document goes, `postId`'s list loses nothing, and the parent keeps
      the id, now dangling. */
  lemma ForeignDeleteLeavesDanglingId(st: Store, postId: PostId, commentId: CommentId, user: Principal)
    requires LinksIntact(st)
    requires postId in st.posts && commentId in st.comments
    requires st.comments[commentId].post != postId
    requires MayModify(user, st.comments[commentId].author)
    ensures var s := CommentController.DeleteComment(st, postId, commentId, user);
      var parent := st.comments[commentId].post;
      && s.response == Reply(200, CommentDeleted)
      && commentId !in s.store.comments
      && s.store.posts[postId] == st.posts[postId]
      && parent in s.store.posts && commentId in s.store.posts[parent].comments
      && !LinksIntact(s.store)
  {
    var parent := st.comments[commentId].post;
    if commentId in st.posts[postId].comments {
      OnlyParentListsComment(st, postId, commentId);
    }
    var s := CommentController.DeleteComment(st, postId, commentId, user);
    var j :| 0 <= j < |s.store.posts[parent].comments| && s.store.posts[parent].comments[j] == commentId;
    assert s.store.posts[parent].comments[j] !in s.store.comments;
  }

  /** The dangling id left by a foreign delete makes a non-admin's post-scoped
      delete of it through its real parent fault (500) and change nothing. */
  lemma DanglingIdFaults(st: Store, postId: PostId, commentId: CommentId, user: Principal, anyone: Principal)
    requires LinksIntact(st)
    requires postId in st.posts && commentId in st.comments
    requires st.comments[commentId].post != postId
    requires MayModify(user, st.comments[commentId].author)
    requires !anyone.isAdmin
    ensures var s := CommentController.DeleteComment(st, postId, commentId, user);
      var parent := st.comments[commentId].post;
      PostController.DeleteComment(s.store, parent, commentId, anyone) == Reject(s.store, 500, ServerFault)
  {
    ForeignDeleteLeavesDanglingId(st, postId, commentId, user);
  }

  /** An admin's post-scoped delete of that dangling id through its real parent
      succeeds: it drops the id from the parent's list, leaves the comment
      documents alone, and so repairs the link the foreign delete broke. */
  lemma DanglingIdAdminRepairs(st: Store, postId: PostId, commentId: CommentId, user: Principal, admin: Principal)
    requires LinksIntact(st)
    requires postId in st.posts && commentId in st.comments
    requires st.comments[commentId].post != postId
    requires MayModify(user, st.comments[commentId].author)
    requires admin.isAdmin
    ensures var s := CommentController.DeleteComment(st, postId, commentId, user);
      var parent := st.comments[commentId].post;
      var d := PostController.DeleteComment(s.store, parent, commentId, admin);
      && d.response == Reply(200, CommentDeleted)
      && d.store.comments == s.store.comments
      && commentId !in d.store.posts[parent].comments
      && LinksIntact(d.store)
  {
    var parent := st.comments[commentId].post;
    ForeignDeleteLeavesDanglingId(st, postId, commentId, user);
    if commentId in st.posts[postId].comments {
      OnlyParentListsComment(st, postId, commentId);
    }
    var s := CommentController.DeleteComment(st, postId, commentId, user);
    assert s.store == Unlink(st, postId, commentId);
    assert s.store.posts == st.posts;
    assert Unlink(s.store, parent, commentId) == Unlink(st, parent, commentId);
    StoreInvariants.UnlinkKeepsInvariants(st, parent, commentId);
  }

  /** On an intact store the post-scoped delete never faults. */
  lemma IntactStoreNeverFaults(st: Store, postId: PostId, commentId: CommentId, user: Principal)
    requires LinksIntact(st)
    ensures PostController.DeleteComment(st, postId, commentId, user).response.status != 500
  {
    if postId in st.posts && commentId in st.posts[postId].comments {
      OnlyParentListsComment(st, postId, commentId);
    }
  }

  /** On an intact store, deleting a comment through its own post gives the same
      reply and the same store through either route. */
  lemma ScopedDeletesAgree(st: Store, postId: PostId, commentId: CommentId, user: Principal)
    requires LinksIntact(st)
    requires commentId in st.comments && st.comments[commentId].post == postId
    ensures PostController.DeleteComment(st, postId, commentId, user)
         == CommentController.DeleteComment(st, postId, commentId, user)
  {
    assert postId in st.posts && commentId in st.posts[postId].comments;
  }
}

=== FILE: model.dfy ===
/**
 The blog's persistent state and the shapes every handler shares: the three
 collections (users, posts, comments) as finite maps keyed by document id, the
 authenticated principal, the admin-or-author rule, and the responses.
 */
module Model {
  import opened Base
  import opened Crypto

  /** A document id (MongoDB ObjectId). Ids are issued from one counter and never reused. */
  type Id = nat
  type UserId = Id
  type PostId = Id
  type CommentId = Id

  /** A user document; the password exists only as a bcrypt digest. */
  datatype User = User(username: string, email: string, password: Digest, isAdmin: bool)

  /** A post document with the ordered list of its comments' ids. */
  datatype Post = Post(title: string, content: string, author: UserId, comments: seq<CommentId>)

  /** A comment document with a back-reference to its post. */
  datatype Comment = Comment(content: string, author: UserId, post: PostId)

  /** The database: three collections and the next id the store will issue. */
  datatype Store = Store(
    users: map<UserId, User>,
    posts: map<PostId, Post>,
    comments: map<CommentId, Comment>,
    nextId: Id)

  /** `req.user` as `protect` attaches it: the stored user without its password. */
  datatype Principal = Principal(id: UserId, username: string, email: string, isAdmin: bool)

  /** The stored record `users[id]` as the request sees it, password stripped. */
  function PublicView(id: UserId, u: User): Principal {
    Principal(id, u.username, u.email, u.isAdmin)
  }

  /** The resource authorization rule shared by every delete: an admin, or the
      author of the resource. */
  predicate MayModify(who: Principal, author: UserId) {
    who.isAdmin || who.id == author
  }

  /** Every id in use, as a key or inside a post's comment list, was issued
      already: the next id is fresh. */
  ghost predicate Valid(st: Store) {
    && (forall id :: id in st.users ==> id < st.nextId)
    && (forall id :: id in st.posts ==> id < st.nextId)
    && (forall id :: id in st.comments ==> id < st.nextId)
    && (forall p, i :: p in st.posts && 0 <= i < |st.posts[p].comments| ==> st.posts[p].comments[i] < st.nextId)
  }

  /** No two users share an email address. */
  ghost predicate EmailsUnique(users: map<UserId, User>) {
    forall a, b :: a in users && b in users && users[a].email == users[b].email ==> a == b
  }

  /** The post/comment link: every comment's id is in its parent post's list,
      and every id in a post's list names an existing comment of that post. */
  ghost predicate LinksIntact(st: Store) {
    && (forall c :: c in st.comments ==>
          st.comments[c].post in st.posts && c in st.posts[st.comments[c].post].comments)
    && (forall p, i :: p in st.posts && 0 <= i < |st.posts[p].comments| ==>
          st.posts[p].comments[i] in st.comments && st.comments[st.posts[p].comments[i]].post == p)
  }

  /** The empty database. */
  function EmptyStore(): (st: Store)
    ensures Valid(st) && EmailsUnique(st.users) && LinksIntact(st)
    ensures st.users == map[] && st.posts == map[] && st.comments == map[]
  {
    Store(map[], map[], map[], 0)
  }

  /** `ids.filter((c) => c !== id)`: every occurrence of `id` goes, every other
      id keeps its number of occurrences. */
  function Without(ids: seq<CommentId>, id: CommentId): (r: seq<CommentId>)
    ensures id !in r
    ensures forall x :: x != id ==> multiset(r)[x] == multiset(ids)[x]
    ensures id !in ids ==> r == ids
  {
    if |ids| == 0 then []
    else
      assert ids == [ids[0]] + ids[1..];
      (if ids[0] == id then [] else [ids[0]]) + Without(ids[1..], id)
  }

  /** Filtering distributes over concatenation, so the kept ids stay in order. */
  lemma {:induction false} WithoutConcat(a: seq<CommentId>, b: seq<CommentId>, id: CommentId)
    ensures Without(a + b, id) == Without(a, id) + Without(b, id)
    decreases |a|
  {
    if |a| > 0 {
      assert (a + b)[0] == a[0] && (a + b)[1..] == a[1..] + b;
      WithoutConcat(a[1..], b, id);
    } else {
      assert a + b == b;
    }
  }

  /** The effect both comment deletes share: drop `commentId` from post `postId`'s
      list and delete the comment document; nothing else changes. */
  function Unlink(st: Store, postId: PostId, commentId: CommentId): (r: Store)
    requires postId in st.posts
    ensures r.users == st.users && r.nextId == st.nextId
    ensures r.posts.Keys == st.posts.Keys
    ensures forall p :: p in st.posts && p != postId ==> r.posts[p] == st.posts[p]
    ensures r.posts[postId] == st.posts[postId].(comments := Without(st.posts[postId].comments, commentId))
    ensures r.comments.Keys == st.comments.Keys - {commentId}
    ensures forall c :: c in r.comments ==> r.comments[c] == st.comments[c]
  {
    var post := st.posts[postId];
    st.(posts := st.posts[postId := post.(comments := Without(post.comments, commentId))],
        comments := st.comments - {commentId})
  }

  /** The effect of adding a comment: the comment document under the next id,
      its id appended to the end of post `postId`'s list. */
  function Attach(st: Store, postId: PostId, comment: Comment): Store
    requires postId in st.posts
  {
    var post := st.posts[postId];
    st.(comments := st.comments[st.nextId := comment],
        posts := st.posts[postId := post.(comments := post.comments + [st.nextId])],
        nextId := st.nextId + 1)
  }

  /** The effect of registering: the user document under the next id. */
  function AddUser(st: Store, u: User): Store {
    st.(users := st.users[st.nextId := u], nextId := st.nextId + 1)
  }

  /** On a valid store the next id is in no post's comment list. */
  lemma FreshIdUnlisted(st: Store, postId: PostId)
    requires Valid(st) && postId in st.posts
    ensures st.nextId !in st.posts[postId].comments
  {
    var ids := st.posts[postId].comments;
    assert forall i :: 0 <= i < |ids| ==> ids[i] != st.nextId;
  }

  /** The `message` of every JSON reply the handlers send. */
  datatype Message =
    | PostNotFound | CommentNotFound
    | LoginRequired          // "Unauthorized. Please log in."
    | NoUserData             // "Unauthorized: No user data"
    | PostDeleteForbidden | CommentDeleteForbidden
    | PostDeleted | CommentDeleted
    | EmptyComment
    | FieldsRequired | EmailInUse | Registered
    | UserNotFound | InvalidCredentials | MissingSecret
    | NoTokenProvided | InvalidToken | TokenUserNotFound
    | AdminsOnly
    | ServerFault            // an exception caught by the handler

  /** A reply body: a message, one or more documents, or a login session. */
  datatype Body =
    | Note(message: Message)
    | PostDoc(postId: PostId, post: Post)
    | PostDocs(posts: map<PostId, Post>)
    | CommentDoc(commentId: CommentId, comment: Comment)
    | CommentDocs(entries: seq<(CommentId, Comment)>)
    | Session(token: string, id: UserId, username: string, email: string, isAdmin: bool)

  datatype Response = Response(status: int, body: Body)

  /** What a mutating handler produces: its reply and the database afterwards. */
  datatype Step = Step(response: Response, store: Store)

  /** A reply carrying only a message. */
  function Reply(status: int, message: Message): Response {
    Response(status, Note(message))
  }

  /** A rejected request: the reply, and the database as it was. */
  function Reject(st: Store, status: int, message: Message): Step {
    Step(Reply(status, message), st)
  }
}

=== FILE: post_controller.dfy ===
/**
 controllers/postController.js: post lookup, creation and deletion, and the
 post-scoped comment delete (`DELETE /posts/:postId/comments/:commentId`).
 */
module PostController {
  import opened Base
  import opened Model

  /** `GET /posts/:id`. */
  function GetPostById(st: Store, id: PostId): (r: Response)
    ensures id !in st.posts <==> r == Reply(404, PostNotFound)
    ensures id in st.posts ==> r.status == 200 && r.body == PostDoc(id, st.posts[id])
  {
    if id !in st.posts then Reply(404, PostNotFound)
    else Response(200, PostDoc(id, st.posts[id]))
  }

  /** `GET /posts/user/:userId`: the posts whose author is `userId`, and only those. */
  function GetUserPosts(st: Store, userId: UserId): (r: Response)
    ensures r.status == 200 && r.body.PostDocs?
    ensures forall p :: p in r.body.posts <==> p in st.posts && st.posts[p].author == userId
    ensures forall p :: p in r.body.posts ==> r.body.posts[p] == st.posts[p]
  {
    Response(200, PostDocs(map p | p in st.posts && st.posts[p].author == userId :: st.posts[p]))
  }

  /** `POST /posts`: without a user, 401 and no change; otherwise one new post
      authored by the user, with no comments, under the next id. */
  function CreatePost(st: Store, title: string, content: string, user: Option<Principal>): (s: Step)
    ensures user.None? ==> s == Reject(st, 401, LoginRequired)
    ensures user.Some? ==>
      var id := st.nextId;
      var post := Post(title, content, user.value.id, []);
      && s.response == Response(201, PostDoc(id, post))
      && s.store.posts.Keys == st.posts.Keys + {id}
      && s.store.posts[id] == post
      && (forall p :: p in st.posts && p != id ==> s.store.posts[p] == st.posts[p])
      && s.store.users == st.users && s.store.comments == st.comments
      && s.store.nextId == id + 1
  {
    match user
    case None => Reject(st, 401, LoginRequired)
    case Some(u) =>
      var id := st.nextId;
      var post := Post(title, content, u.id, []);
      Step(Response(201, PostDoc(id, post)), st.(posts := st.posts[id := post], nextId := id + 1))
  }

  /** `DELETE /posts/:id`: existence, then presence of a user, then the
      admin-or-author rule; on success only the post document goes. */
  function DeletePost(st: Store, id: PostId, user: Option<Principal>): (s: Step)
    ensures id !in st.posts ==> s == Reject(st, 404, PostNotFound)
    ensures id in st.posts && user.None? ==> s == Reject(st, 401, NoUserData)
    ensures id in st.posts && user.Some? && !MayModify(user.value, st.posts[id].author) ==>
      s == Reject(st, 403, PostDeleteForbidden)
    ensures id in st.posts && user.Some? && MayModify(user.value, st.posts[id].author) ==>
      && s.response == Reply(200, PostDeleted)
      && s.store.posts.Keys == st.posts.Keys - {id}
      && (forall p :: p in s.store.posts ==> s.store.posts[p] == st.posts[p])
      && s.store.comments == st.comments
      && s.store.users == st.users && s.store.nextId == st.nextId
  {
    if id !in st.posts then Reject(st, 404, PostNotFound)
    else if user.None? then Reject(st, 401, NoUserData)
    else if !MayModify(user.value, st.posts[id].author) then Reject(st, 403, PostDeleteForbidden)
    else Step(Reply(200, PostDeleted), st.(posts := st.posts - {id}))
  }

  /** `DELETE /posts/:postId/comments/:commentId`: the comment is looked up in the
      post's own list first. For an id in the list with no comment document behind
      it, the permission test short-circuits on an admin, who goes on to the
      unlink; for anyone else it reads `commentDoc.author` and throws, which the
      handler answers with 500. */
  function DeleteComment(st: Store, postId: PostId, commentId: CommentId, user: Principal): (s: Step)
    ensures postId !in st.posts ==> s == Reject(st, 404, PostNotFound)
    ensures postId in st.posts && commentId !in st.posts[postId].comments ==>
      s == Reject(st, 404, CommentNotFound)
    ensures postId in st.posts && commentId in st.posts[postId].comments && commentId !in st.comments ==>
      if user.isAdmin
      then s == Step(Reply(200, CommentDeleted), Unlink(st, postId, commentId))
      else s == Reject(st, 500, ServerFault)
    ensures postId in st.posts && commentId in st.posts[postId].comments && commentId in st.comments ==>
      if MayModify(user, st.comments[commentId].author)
      then s == Step(Reply(200, CommentDeleted), Unlink(st, postId, commentId))
      else s == Reject(st, 403, CommentDeleteForbidden)
  {
    if postId !in st.posts then Reject(st, 404, PostNotFound)
    else if commentId !in st.posts[postId].comments then Reject(st, 404, CommentNotFound)
    else if !user.isAdmin && commentId !in st.comments then Reject(st, 500, ServerFault)
    else if !user.isAdmin && st.comments[commentId].author != user.id then Reject(st, 403, CommentDeleteForbidden)
    else Step(Reply(200, CommentDeleted), Unlink(st, postId, commentId))
  }
}

=== FILE: round_trips.dfy ===
/**
 Handlers composed with their partners: what a created post or added comment
 looks like to the read handlers, and that deleting it again by its author
 restores the collections exactly.
 */
module RoundTrips {
  import opened Base
  import opened Model
  import PostController
  import CommentController

  /** The three collections, ignoring the id counter. */
  predicate SameCollections(a: Store, b: Store) {
    a.users == b.users && a.posts == b.posts && a.comments == b.comments
  }

  /** A created post is found by id and among its author's posts. */
  lemma CreateThenGet(st: Store, title: string, content: string, user: Principal)
    ensures var s := PostController.CreatePost(st, title, content, Some(user));
      && PostController.GetPostById(s.store, st.nextId)
           == Response(200, PostDoc(st.nextId, Post(title, content, user.id, [])))
      && st.nextId in PostController.GetUserPosts(s.store, user.id).body.posts
  {
  }

  /** Deleting a freshly created post as its author gives back the same collections. */
  lemma CreateThenDelete(st: Store, title: string, content: string, user: Principal)
    requires Valid(st)
    ensures var s := PostController.CreatePost(st, title, content, Some(user));
      var d := PostController.DeletePost(s.store, st.nextId, Some(user));
      d.response == Reply(200, PostDeleted) && SameCollections(d.store, st)
  {
    var s := PostController.CreatePost(st, title, content, Some(user));
    var d := PostController.DeletePost(s.store, st.nextId, Some(user));
    assert d.store.posts == st.posts;
  }

  /** A deleted post is no longer found. */
  lemma DeleteThenGet(st: Store, id: PostId, user: Option<Principal>)
    requires PostController.DeletePost(st, id, user).response.status == 200
    ensures PostController.GetPostById(PostController.DeletePost(st, id, user).store, id) == Reply(404, PostNotFound)
  {
  }

  /** Appending a new id with its document appends its entry to the populated list. */
  lemma {:induction false} PopulateAppend(ids: seq<CommentId>, m: map<CommentId, Comment>, x: CommentId, c: Comment)
    requires x !in ids
    ensures CommentController.Populate(ids + [x], m[x := c]) == CommentController.Populate(ids, m) + [(x, c)]
    decreases |ids|
  {
    if |ids| == 0 {
      assert ids + [x] == [x];
      assert [x][1..] == [];
    } else {
      assert (ids + [x])[0] == ids[0] && (ids + [x])[1..] == ids[1..] + [x];
      PopulateAppend(ids[1..], m, x, c);
    }
  }

  /** An added comment shows up last when the post's comments are listed,
      after the entries that were there before. */
  lemma AddThenList(st: Store, postId: PostId, content: Option<string>, user: Principal)
    requires Valid(st)
    requires CommentController.AddComment(st, postId, content, user).response.status == 201
    ensures var s := CommentController.AddComment(st, postId, content, user);
      var before := CommentController.GetCommentsByPost(st, postId);
      var after := CommentController.GetCommentsByPost(s.store, postId);
      && before.status == 200 && after.status == 200
      && after.body.entries == before.body.entries + [(st.nextId, Comment(content.value, user.id, postId))]
  {
    var ids := st.posts[postId].comments;
    FreshIdUnlisted(st, postId);
    PopulateAppend(ids, st.comments, st.nextId, Comment(content.value, user.id, postId));
  }

  /** Filtering a freshly appended id out again gives back the original list. */
  lemma WithoutAppended(ids: seq<CommentId>, x: CommentId)
    requires x !in ids
    ensures Without(ids + [x], x) == ids
  {
    WithoutConcat(ids, [x], x);
    assert Without([x], x) == [];
  }

  /** Unlinking the comment just attached gives back the same collections. */
  lemma AttachThenUnlink(st: Store, postId: PostId, comment: Comment)
    requires Valid(st) && postId in st.posts
    ensures SameCollections(Unlink(Attach(st, postId, comment), postId, st.nextId), st)
  {
    var ids := st.posts[postId].comments;
    FreshIdUnlisted(st, postId);
    WithoutAppended(ids, st.nextId);
    var r := Unlink(Attach(st, postId, comment), postId, st.nextId);
    assert r.posts == st.posts;
    assert r.comments == st.comments;
  }

  /** Deleting a freshly added comment as its author, by either route, gives back
      the same collections. */
  lemma AddThenDelete(st: Store, postId: PostId, content: Option<string>, user: Principal)
    requires Valid(st)
    requires CommentController.AddComment(st, postId, content, user).response.status == 201
    ensures var s := CommentController.AddComment(st, postId, content, user);
      var d1 := CommentController.DeleteComment(s.store, postId, st.nextId, user);
      var d2 := PostController.DeleteComment(s.store, postId, st.nextId, user);
      && d1.response == Reply(200, CommentDeleted) && SameCollections(d1.store, st)
      && d2.response == Reply(200, CommentDeleted) && SameCollections(d2.store, st)
  {
    var comment := Comment(content.value, user.id, postId);
    var s := CommentController.AddComment(st, postId, content, user);
    assert s.store == Attach(st, postId, comment);
    assert st.nextId in s.store.posts[postId].comments;
    AttachThenUnlink(st, postId, comment);
  }

  /** After a successful comment delete through a post, that post's listing no
      longer shows the comment and its document is gone. */
  lemma DeleteThenList(st: Store, postId: PostId, commentId: CommentId, user: Principal)
    requires CommentController.DeleteComment(st, postId, commentId, user).response.status == 200
    ensures var s := CommentController.DeleteComment(st, postId, commentId, user).store;
      var listed := CommentController.GetCommentsByPost(s, postId);
      && commentId !in s.comments
      && listed.status == 200
      && forall k :: 0 <= k < |listed.body.entries| ==> listed.body.entries[k].0 != commentId
  {
  }
}

=== FILE: sessions.dfy ===
/**
 How registration, login and the guards fit together: a registered user can
 log in, a second registration with the same email is refused, the token login
 issues passes `protect` for exactly seven days, and the admin guard sees the
 stored admin flag.
 */
module Sessions {
  import opened Base
  import opened Crypto
  import opened Model
  import AuthController
  import AuthMiddleware

  /** After a successful `register`, `login` with the same email and password
      succeeds for the new user, carrying the admin flag it was registered with. */
  lemma RegisterThenLogin(st: Store, username: Option<string>, email: Option<string>, password: Option<string>,
                          isAdmin: Option<bool>, kdf: Kdf, salt: nat, jwt: Jwt, secret: Option<string>, now: int)
    requires Valid(st)
    requires AuthController.Register(st, username, email, password, isAdmin, kdf, salt).response.status == 201
    requires Truthy(secret)
    ensures var st' := AuthController.Register(st, username, email, password, isAdmin, kdf, salt).store;
      var r := AuthController.Login(st', email, password, kdf, jwt, secret, now);
      && r.status == 200
      && r.body.Session?
      && r.body.id == st.nextId
      && r.body.username == username.value && r.body.email == email.value
      && r.body.isAdmin == isAdmin.GetOr(false)
      && r.body.token == jwt.sign(IssueClaims(st.nextId, isAdmin.GetOr(false), now), secret.value)
  {
    var st' := AuthController.Register(st, username, email, password, isAdmin, kdf, salt).store;
    var id := st.nextId;
    assert id in st'.users && st'.users[id].email == email.value;
    var found := AuthController.FindByEmail(st'.users, email.value);
    assert found.Some?;
  }

  /** A second registration with an email already in use is refused and
      changes nothing, whatever the other fields. */
  lemma RegisterTwiceConflicts(st: Store, username: Option<string>, email: Option<string>, password: Option<string>,
                               isAdmin: Option<bool>, kdf: Kdf, salt: nat,
                               username2: Option<string>, password2: Option<string>,
                               isAdmin2: Option<bool>, salt2: nat)
    requires AuthController.Register(st, username, email, password, isAdmin, kdf, salt).response.status == 201
    requires Truthy(username2) && Truthy(password2)
    ensures var st' := AuthController.Register(st, username, email, password, isAdmin, kdf, salt).store;
      AuthController.Register(st', username2, email, password2, isAdmin2, kdf, salt2)
        == Reject(st', 400, EmailInUse)
  {
    var st' := AuthController.Register(st, username, email, password, isAdmin, kdf, salt).store;
    assert st.nextId in st'.users && st'.users[st.nextId].email == email.value;
  }

  /** The token `login` hands out, sent back as "Bearer <token>", lets `protect`
      through to the logged-in user's stored record until seven days after
      issue, and is refused as an invalid token from then on. */
  lemma LoginThenProtect(st: Store, email: Option<string>, password: Option<string>,
                         kdf: Kdf, jwt: Jwt, secret: Option<string>, now: int, later: int)
    requires Sound(jwt)
    requires AuthController.Login(st, email, password, kdf, jwt, secret, now).status == 200
    ensures var r := AuthController.Login(st, email, password, kdf, jwt, secret, now);
      && r.body.Session?
      && r.body.id in st.users
      && AuthMiddleware.Protect(st, Some("Bearer " + r.body.token), jwt, secret, later)
           == if later < now + TokenLifetime
              then AuthMiddleware.Next(Principal(r.body.id, r.body.username, r.body.email, r.body.isAdmin))
              else AuthMiddleware.Halt(Reply(401, InvalidToken))
  {
    var id := AuthController.FindByEmail(st.users, email.value).value;
    var c := IssueClaims(id, st.users[id].isAdmin, now);
    var token := jwt.sign(c, secret.value);
    assert TokenShaped(token) && jwt.decode(token, secret.value) == Some(c);
    AuthMiddleware.BearerTokenOfHeader(token);
  }

  /** Behind `protect`, the admin guard passes exactly the users whose stored
      admin flag is set. */
  lemma AdminGuardSeesStoredFlag(st: Store, header: Option<string>, jwt: Jwt, secret: Option<string>, now: int)
    requires AuthMiddleware.Protect(st, header, jwt, secret, now).Next?
    ensures var u := AuthMiddleware.Protect(st, header, jwt, secret, now).user;
      AuthMiddleware.AdminGuard(Some(u)).Next? <==> st.users[u.id].isAdmin
  {
  }
}
